=== FILE: README.md ===
# Wallet connection core of the storefront, in Dafny

This project models the wallet-connection core of a browser storefront. The
core connects the store to a browser wallet through the EIP-1193 provider
interface. It has three parts, and each part has its own module.

- **The wallet store** (`WalletStore`, from `handleWallet.js`). The state is a
  seven-field record: connection flag, address, balance, network label,
  connecting flag, last error and transaction list. The pure reducer
  `Reduce` handles seven action kinds and returns the state unchanged for any
  other action type. `Handle` defaults a missing state to `Initial`.
  `ReduceAll` folds the reducer over a sequence of dispatched actions.
- **The wallet session** (`Networks` and `Session`, from `WalletContext.js`).
  `Networks` holds the chain-id registry and its `"Chain ID: N"` fallback.
  `ChainLabel` also models the `parseInt(chainId, 16)` in front of the
  registry lookup; that parser lives in `Numerals`. `Session.WalletSession`
  is a class holding the store's state, the log of dispatched actions and
  the log of requests sent to the provider. Its methods are `ConnectWallet`,
  `DisconnectWallet`, `UpdateBalance`, `CheckWalletConnection` and the three
  provider event handlers. `Valid()` ties the state to the reducer folded
  over the dispatch log from `Initial`. A `Provider` value stands for the
  answers the wallet gives during one operation. An absent provider stands
  for a missing `window.ethereum`.
- **The navigation bar** (`Navbar`, from `Navbar.jsx`). It covers
  `formatAddress` (with ECMAScript `slice` clamping, over code points), `formatBalance`,
  `getNetworkColor`, the dropdown flag and the `handleWalletAction` button
  handler.

## Model

| member | source | states |
|---|---|---|
| WalletStore.Reduce | src/redux/reducer/handleWallet.js:11-64 | `handleWallet` on a present state: one case per action type, and the state itself for any other type. Its contract says only a connect-success can turn a disconnected store connected, and one action adds at most one transaction. The `*Effect` lemmas and `ReducePreservesConsistent` state each case |
| WalletStore.Handle | src/redux/reducer/handleWallet.js:11 | `handleWallet` with its `state = initialState` default for a missing state; `MissingStateIsInitial` states it |
| WalletStore.ReduceAll | src/redux/reducer/handleWallet.js:11-64 | the store's state after it applies the dispatched actions in order. Its contract bounds the transaction list by the number of actions. `ReduceAllAppend`, `DisconnectErasesHistory` and `ReachableConsistent` state the rest |
| WalletStore.ConnectStartEffect | src/redux/reducer/handleWallet.js:13-18 | connect-start sets `isConnecting` and clears `error`; every other field is unchanged |
| WalletStore.ConnectSuccessEffect | src/redux/reducer/handleWallet.js:20-29 | connect-success sets connected and not connecting and clears the error; address, balance and network come from the payload; transactions are unchanged |
| WalletStore.ConnectFailureEffect | src/redux/reducer/handleWallet.js:31-36 | connect-failure clears `isConnecting` and stores the message as `error`; connection flag, address, balance, network and transactions are unchanged |
| WalletStore.DisconnectResets | src/redux/reducer/handleWallet.js:38-41 | disconnect yields exactly the initial state from any state, so a second disconnect changes nothing |
| WalletStore.UpdateBalanceEffect | src/redux/reducer/handleWallet.js:43-47 | update-balance replaces `userBalance` and nothing else |
| WalletStore.UpdateNetworkEffect | src/redux/reducer/handleWallet.js:49-53 | update-network replaces `currentNetwork` and nothing else |
| WalletStore.AddTransactionEffect | src/redux/reducer/handleWallet.js:55-59 | add-transaction makes the list one longer, with the payload at its head and the old list as its tail; nothing else changes |
| WalletStore.UnrecognisedIsIdentity | src/redux/reducer/handleWallet.js:61-62 | an action of any other type returns the state unchanged |
| WalletStore.MissingStateIsInitial | src/redux/reducer/handleWallet.js:1-11 | a missing state is treated as the initial state, so the store's own init action yields `Initial` |
| WalletStore.ReduceAllAppend | src/redux/reducer/handleWallet.js:11-64 | reducing two batches of actions in turn equals reducing their concatenation |
| WalletStore.DisconnectErasesHistory | src/redux/reducer/handleWallet.js:38-41 | after a disconnect, the state depends only on the actions dispatched after it |
| WalletStore.ReducePreservesConsistent | src/redux/reducer/handleWallet.js:11-64 | every transition keeps two facts: no address is held while disconnected, and no error is held while connecting |
| WalletStore.ReachableConsistent | src/redux/reducer/handleWallet.js:1-64 | every state reachable from the initial state by any action sequence satisfies those two facts |
| WalletStore.ReconnectOverlapsConnected | src/redux/reducer/handleWallet.js:13-18 | a connect-start dispatched while connected gives a reachable state that is connecting and connected at once |
| Numerals.ParseIntRadix16 | src/utils/WalletContext.js:83 | `parseInt(chainId, 16)`: skip leading white space, read an optional sign and `0x`/`0X`, then the longest run of hex digits; NaN (`None`) when that run is empty. `HexPrefixLength`, `TrimLeadingWhiteSpace`, `ParseIgnoresTrailingText` and `ParseHexQuantity` state it |
| Numerals.IntToDecimal | src/utils/WalletContext.js:83 | `String(i)` for the parsed id in the template literal: "-" then `NatToDecimal(-i)` when i is negative, `NatToDecimal(i)` otherwise, so -0 renders as "0". `DecimalSign` and `IntToDecimalInjective` state it |
| Numerals.NatToDecimal | src/utils/WalletContext.js:83 | a natural number is rendered as non-empty decimal digits, with a leading `0` only for zero |
| Numerals.DecimalRoundTrip | src/utils/WalletContext.js:83 | reading the decimal rendering back gives the number |
| Numerals.IntToDecimalInjective | src/utils/WalletContext.js:83 | two different integers never share a rendering, including negative ones |
| Numerals.HexDigitValue | src/utils/WalletContext.js:83 | hexadecimal digits in either case denote 0 to 15; all other characters are not hex digits |
| Numerals.HexValue | src/utils/WalletContext.js:83 | the number `parseInt` computes from the run of hexadecimal digits, most significant first; `HexRoundTrip` and `ParseHexQuantity` state it |
| Numerals.HexRoundTrip | src/utils/WalletContext.js:83 | reading back the hexadecimal digits of n gives n, for every natural number n |
| Numerals.HexPrefixLength | src/utils/WalletContext.js:83 | `parseInt` reads the longest run of hexadecimal digits: every character of the run is a digit, and the one after it is not |
| Numerals.TrimLeadingWhiteSpace | src/utils/WalletContext.js:83 | `parseInt` skips ECMAScript white space at the front: the result is no longer than the input and does not start with white space; `TrimKeepsSuffix` states that the rest is kept as it is |
| Numerals.TrimKeepsSuffix | src/utils/WalletContext.js:83 | the trimmed string is a suffix of the input, and every character removed before it is ECMAScript white space |
| Numerals.ParseIgnoresTrailingText | src/utils/WalletContext.js:83 | `parseInt(q + rest, 16)` returns n when q is n's "0x" quantity and rest starts with a non-hex character |
| Numerals.ParseHexQuantity | src/utils/WalletContext.js:82-83 | `parseInt(chainId, 16)` of a chain id in the EIP-1193 "0x" form returns that id |
| Networks.NetworkName | src/utils/WalletContext.js:82-83 | `networks[id] \|\| "Chain ID: " + id` for a parsed id. `KnownNetworks`, `FallbackName` and `NetworkNameInjective` state it |
| Networks.ChainLabel | src/utils/WalletContext.js:82-83 | the label of a raw chain id: parse it, then look it up, and NaN gives "Chain ID: NaN". `ChainLabelDeterminesId`, `NaNIsNoName` and `ChainLabelOfQuantity` state it |
| Networks.KnownNetworks | src/utils/WalletContext.js:31-42 | table ids map to their labels, e.g. 1 to "Ethereum Mainnet" and 137 to "Polygon Mainnet" |
| Networks.FallbackName | src/utils/WalletContext.js:82-83 | an id outside the table is labelled "Chain ID: " plus its decimal text, and that text reads back as the id |
| Networks.UnknownChainExample | src/utils/WalletContext.js:82-83 | chain 999999 is labelled "Chain ID: 999999" |
| Networks.RegistryLabelsAreNotFallbacks | src/utils/WalletContext.js:31-42 | no table label can be mistaken for a fallback label |
| Networks.NetworkNameInjective | src/utils/WalletContext.js:82-83 | two chains with the same label are the same chain |
| Networks.NaNIsNoName | src/utils/WalletContext.js:82-83 | "Chain ID: NaN" is never the label of a parsed number |
| Networks.ChainLabelDeterminesId | src/utils/WalletContext.js:82-83 | two raw chain ids with the same label parse to the same number, or both to NaN |
| Networks.ChainLabelOfQuantity | src/utils/WalletContext.js:129-131 | a chain id in the "0x" form resolves to the table label or fallback label of that id |
| Session.ConnectDiscipline | src/utils/WalletContext.js:99-149 | with no provider, connect dispatches nothing; otherwise it dispatches connect-start then one more action: success exactly when all requests were answered, else failure carrying the first rejection's message |
| Session.ConnectRequestOrder | src/utils/WalletContext.js:111-129 | requests go out in the order accounts, balance of `accounts[0]` at "latest", chain id; each goes out only if the one before it was answered |
| Session.ConnectSettles | src/utils/WalletContext.js:107-148 | a connect with a provider that finishes never leaves the store connecting. On success the store is connected with address `accounts[0]` and the converted balance and label. On failure only `isConnecting` and `error` change. Transactions are kept. |
| Session.WalletSession.constructor | src/redux/reducer/handleWallet.js:1-9 | the session starts with the initial state and empty logs |
| Session.WalletSession.Dispatch | src/utils/WalletContext.js:107 | `dispatch`: the state becomes the reducer applied to it, the action is appended to the log, and the state stays the fold of the log from `Initial` |
| Session.WalletSession.ConnectWallet | src/utils/WalletContext.js:99-149 | the dispatch and request logs grow by exactly the connect actions and requests. No provider leaves the state unchanged and raises nothing. Success yields the connected state; a rejection is re-raised, and the state differs only by `isConnecting` and `error` |
| Session.WalletSession.RequestConnectData | src/utils/WalletContext.js:109-129 | the try block sends the requests of one connect in order, and the first rejection ends the block and is returned |
| Session.WalletSession.DisconnectWallet | src/utils/WalletContext.js:151-153 | dispatches one disconnect, issues no request, and leaves the initial state |
| Session.WalletSession.UpdateBalance | src/utils/WalletContext.js:155-173 | without a truthy stored address nothing happens. Without a provider no request is issued. A rejected request dispatches nothing and raises nothing. An answer dispatches update-balance, which changes only the balance |
| Session.WalletSession.CheckWalletConnection | src/utils/WalletContext.js:50-63 | with a provider it asks `eth_accounts`, and it runs a full connect only when that returns a non-empty list. Errors are swallowed; without a provider nothing happens. The new state is the reducer folded over the connect's actions, or unchanged |
| Session.WalletSession.HandleAccountsChanged | src/utils/WalletContext.js:73-79 | an empty list disconnects to the initial state. A first account different from the stored address runs a full connect, and the new state is the reducer folded over its actions. An equal first account does nothing |
| Session.WalletSession.HandleChainChanged | src/utils/WalletContext.js:81-93 | always dispatches update-network with the resolved label. It runs one balance refresh exactly when the state was connected. The new state is the old one with the new label, plus the new balance when a connected refresh was answered |
| Session.WalletSession.HandleDisconnect | src/utils/WalletContext.js:95-97 | the provider's disconnect event resets the store to the initial state |
| Navbar.Slice | src/components/Navbar.jsx:37 | `String.prototype.slice`: negative bounds count from the end, all bounds are clamped, and the result is never longer than the input |
| Navbar.FormatAddress | src/components/Navbar.jsx:35-38 | a missing or empty address gives "". Otherwise the result is the first min(n,6) characters, then "...", then the last min(n,4) characters |
| Navbar.FormatLongAddress | src/components/Navbar.jsx:37 | an address of ten or more characters formats to 13 characters: its first six, "...", its last four |
| Navbar.FormatBalance | src/components/Navbar.jsx:40-43 | a missing or empty balance gives "0.0000"; anything else is the fixed-point rendering of the balance |
| Navbar.NetworkColor | src/components/Navbar.jsx:45-54 | the four mainnet labels map to primary, purple, warning and info; every other label and a missing one map to "text-secondary" |
| Navbar.HighlightedChains | src/components/Navbar.jsx:45-54 | among all chain labels, only chains 1, 137, 56 and 42161 get a colour other than "text-secondary" |
| Navbar.WalletActionToastAsWritten | src/components/Navbar.jsx:21-33 | the code as written: disconnect reports "Wallet disconnected", a thrown connect reports the error, any other connect reports success |
| Navbar.ProviderMissingAnnouncedAsConnected | src/components/Navbar.jsx:25-28 | without a provider, the code as written reports success while the store stays disconnected |
| Navbar.WalletActionToast | src/components/Navbar.jsx:21-33 | corrected toast choice: success for connecting exactly after a real connection, and no extra toast when no provider was found |
| Navbar.ConnectedToastMeansConnected | src/components/Navbar.jsx:25-31 | with the corrected choice, starting disconnected, the success toast shows exactly when the store ends up connected |
| Navbar.NavbarView.constructor | src/components/Navbar.jsx:19 | the dropdown starts closed |
| Navbar.NavbarView.ToggleWalletDropdown | src/components/Navbar.jsx:100 | the button flips the dropdown flag |
| Navbar.NavbarView.HandleWalletAction | src/components/Navbar.jsx:21-33 | takes the disconnect path exactly when connected, otherwise the connect path. A connect failure is caught and returned as an outcome, never propagated. The toast is the corrected choice, and it differs from the toast of the code as written exactly when no provider was found |

## Findings

| source | as written | input that shows it | evidently intended | confidence | as-written member | corrected member |
|---|---|---|---|---|---|---|
| src/components/Navbar.jsx:25-28 | `connectWallet` returns normally when no wallet provider is installed, after showing its own error, so the caller shows "Wallet connected successfully!" | a disconnected store with `window.ethereum` undefined, then the connect button | the success toast only after a connection was made | high (not executed) | Navbar.WalletActionToastAsWritten | Navbar.WalletActionToast |

`Navbar.ProviderMissingAnnouncedAsConnected` exhibits the as-written case.
`Navbar.ConnectedToastMeansConnected` proves the intended property of the
correction, and `HandleWalletAction` uses the corrected choice.

## Invariants the code does not keep

The model follows the code in each case.

- One might expect `isConnecting` and `isConnected` never to be true
  together. The reducer sets `isConnecting` on connect-start without looking
  at `isConnected` (`src/redux/reducer/handleWallet.js:13-18`). An account
  switch while connected re-runs the connect, so both flags are set together
  (`WalletStore.ReconnectOverlapsConnected`).
- One might expect address, balance and network to be null together or set
  together. `handleChainChanged` dispatches update-network whether or not a
  wallet is connected (`src/utils/WalletContext.js:84-87`), so a disconnected
  store can hold a network label. For address and balance, the code keeps a
  weaker invariant: `Session.Coherent` says a disconnected store holds neither.

## Left out

- The wei-to-ether conversion `(parseInt(balance, 16) / 10^18).toFixed(4)` is floating point. Each session takes it as the uninterpreted function `toEther`.
- Navbar.FormatBalance: `parseFloat(balance).toFixed(4)` is floating point. It is the parameter `toFixed4`, so the contract only says which text is handed to it.
- `parseInt` on more than 53 bits of digits rounds to the nearest double. The model keeps the exact integer.
- An integer of 10^21 or more prints in exponent notation in JavaScript. The model always prints plain decimal digits.
- The provider is not modelled as an object. Its answers are `Provider` values, and the requests it receives are the `requests` log. Subscribing the handlers with `window.ethereum.on` is not modelled; the handlers are methods called directly.
- Provider replies of the wrong shape are not modelled, for example an accounts reply that is not an array.
- Toasts and console output are left out, except the toast `handleWalletAction` chooses.
- Navbar.NavbarView.HandleWalletAction: returns the corrected toast `WalletActionToast`, not the success toast `src/components/Navbar.jsx:28` shows after a connect that found no provider. Its contract names that one differing case, and `WalletActionToastAsWritten` gives the toast as written.
- Navbar.FormatAddress: strings are sequences of Unicode code points, while JavaScript `slice` counts UTF-16 code units. `Slice` and `FormatAddress` agree with JavaScript only for text inside the Basic Multilingual Plane, which includes every hexadecimal address.
- React context, hooks, `useWallet` and the JSX markup are left out.
- The stale closure is not modelled. The handlers are registered once at mount, so in the running app they read the first render's wallet state. The model passes them the current state.
- `handleAccountsChanged` does not await `connectWallet`. In the model the connect completes before the handler returns, and the unhandled rejection is not modelled.
- Every provider request is assumed to settle. A request that never settles, such as an unanswered account prompt, leaves `isConnecting` true after `src/utils/WalletContext.js:107`, and the model does not represent that case.
- Interleaving of provider events with a connect in progress is concurrency and is not modelled.
- Object-prototype keys such as "constructor" in the `networks` and `colors` tables are left out.
- `src/redux/reducer/index.js` and the cart slice are not part of this model.

=== FILE: navbar.dfy ===
/**
 * The wallet part of the navigation bar: the display helpers for address,
 * balance and network, the dropdown flag, and the connect/disconnect button.
 */
module Navbar {
  import opened Optional
  import opened WalletStore
  import opened Networks
  import opened Session

  function Min(a: int, b: int): int {
    if a < b then a else b
  }

  function Max(a: int, b: int): int {
    if a < b then b else a
  }

  /** ECMAScript `String.prototype.slice(start, end)`: negative bounds count from the end, all bounds are clamped. */
  function Slice(s: string, start: int, end: int): (r: string)
    ensures |r| <= |s|
  {
    var from := if start < 0 then Max(|s| + start, 0) else Min(start, |s|);
    var to := if end < 0 then Max(|s| + end, 0) else Min(end, |s|);
    if from < to then s[from..to] else ""
  }

  /** `formatAddress`: the first six characters, "...", the last four; "" for a missing or empty address. */
  function FormatAddress(address: Option<string>): (r: string)
    ensures address.None? || address.value == "" ==> r == ""
    ensures address.Some? && address.value != "" ==>
      var a, head, tail := address.value, Min(|address.value|, 6), Min(|address.value|, 4);
      && |r| == head + 3 + tail
      && r[..head] == a[..head]
      && r[head..head + 3] == "..."
      && r[head + 3..] == a[|a| - tail..]
  {
    match address
    case None => ""
    case Some(a) => if a == "" then "" else Slice(a, 0, 6) + "..." + Slice(a, -4, |a|)
  }

  /** An address of ten or more characters always shows as thirteen: six, the ellipsis, four. */
  lemma FormatLongAddress(a: string)
    requires |a| >= 10
    ensures var r := FormatAddress(Some(a));
      |r| == 13 && r[..6] == a[..6] && r[6..9] == "..." && r[9..] == a[|a| - 4..]
  {
  }

  /**
   * `formatBalance`: "0.0000" for a missing or empty balance; otherwise the
   * text `parseFloat(balance).toFixed(4)` gives, passed in as `toFixed4`.
   */
  function FormatBalance(balance: Option<string>, toFixed4: string -> string): (r: string)
    ensures balance.None? || balance.value == "" ==> r == "0.0000"
    ensures balance.Some? && balance.value != "" ==> r == toFixed4(balance.value)
  {
    match balance
    case None => "0.0000"
    case Some(b) => if b == "" then "0.0000" else toFixed4(b)
  }

  const Colors: map<string, string> := map[
    "Ethereum Mainnet" := "text-primary",
    "Polygon Mainnet" := "text-purple",
    "BSC Mainnet" := "text-warning",
    "Arbitrum One" := "text-info",
    "default" := "text-secondary"
  ]

  /** `getNetworkColor`: the colour class of a network label, "text-secondary" by default. */
  function NetworkColor(network: Option<string>): (r: string)
    ensures network == Some("Ethereum Mainnet") ==> r == "text-primary"
    ensures network == Some("Polygon Mainnet") ==> r == "text-purple"
    ensures network == Some("BSC Mainnet") ==> r == "text-warning"
    ensures network == Some("Arbitrum One") ==> r == "text-info"
    ensures network.None? || network.value !in {"Ethereum Mainnet", "Polygon Mainnet", "BSC Mainnet", "Arbitrum One"}
            ==> r == "text-secondary"
  {
    if network.Some? && network.value in Colors then Colors[network.value] else Colors["default"]
  }

  /** Of all chains, only the four mainnets with a colour are highlighted; testnets and unknown chains are not. */
  lemma HighlightedChains(id: int)
    ensures NetworkColor(Some(NetworkName(id))) != "text-secondary" <==> id in {1, 137, 56, 42161}
  {
    if id !in Registry {
      FallbackName(id);
      var name := NetworkName(id);
      assert name[0] == 'C';
    }
  }

  // ----- the connect/disconnect button -----

  /** The path `handleWalletAction` took. */
  datatype WalletAction = Disconnected | ConnectAttempted(result: ConnectResult)

  datatype Toast = SuccessToast(text: string) | ErrorToast(text: string)

  const DisconnectedText := "Wallet disconnected"
  const ConnectedText := "Wallet connected successfully!"
  const FailedText := "Failed to connect wallet"

  /**
   * The toast `handleWalletAction` shows as the code is written: every
   * connect that did not throw is reported as a success, including the one
   * that returned early because no provider is installed.
   */
  function WalletActionToastAsWritten(action: WalletAction): (t: Toast)
    ensures action.Disconnected? ==> t == SuccessToast(DisconnectedText)
    ensures action.ConnectAttempted? ==> (t == ErrorToast(FailedText) <==> action.result.Raised?)
    ensures action.ConnectAttempted? && !action.result.Raised? ==> t == SuccessToast(ConnectedText)
  {
    match action
    case Disconnected => SuccessToast(DisconnectedText)
    case ConnectAttempted(Raised(_)) => ErrorToast(FailedText)
    case ConnectAttempted(_) => SuccessToast(ConnectedText)
  }

  /**
   * Without a provider, the code as written announces a connection that was
   * never made: the store is left disconnected while the success toast shows.
   */
  lemma ProviderMissingAnnouncedAsConnected(s: WalletState, toEther: string -> string)
    requires !s.isConnected
    ensures !ReduceAll(s, ConnectActions(None, toEther)).isConnected
    ensures WalletActionToastAsWritten(ConnectAttempted(ConnectOutcome(None))) == SuccessToast(ConnectedText)
  {
  }

  /**
   * The toast as intended: success only after an actual connection; nothing
   * more when no provider was found, since connectWallet has already shown
   * its own "not installed" error.
   */
  function WalletActionToast(action: WalletAction): (t: Option<Toast>)
    ensures t == Some(SuccessToast(ConnectedText)) <==> action == ConnectAttempted(Connected)
    ensures t == Some(ErrorToast(FailedText)) <==> action.ConnectAttempted? && action.result.Raised?
    ensures t == Some(SuccessToast(DisconnectedText)) <==> action == Disconnected
    ensures t.None? <==> action == ConnectAttempted(ProviderMissing)
  {
    match action
    case ConnectAttempted(ProviderMissing) => None
    case _ => Some(WalletActionToastAsWritten(action))
  }

  /** A success toast for connecting is shown exactly when the store ends up connected by that connect. */
  lemma ConnectedToastMeansConnected(s: WalletState, p: Option<Provider>, toEther: string -> string)
    requires !s.isConnected
    ensures var t := ReduceAll(s, ConnectActions(p, toEther));
      WalletActionToast(ConnectAttempted(ConnectOutcome(p))) == Some(SuccessToast(ConnectedText)) <==> t.isConnected
  {
    if p.Some? {
      ConnectSettles(s, p.value, toEther);
    }
  }

  class NavbarView {
    /** Whether the wallet dropdown menu is open. */
    var showWalletDropdown: bool

    constructor ()
      ensures !showWalletDropdown
    {
      showWalletDropdown := false;
    }

    method ToggleWalletDropdown()
      modifies this
      ensures showWalletDropdown == !old(showWalletDropdown)
    {
      showWalletDropdown := !showWalletDropdown;
    }

    /**
     * `handleWalletAction`: disconnect when connected, otherwise connect; a
     * rejected connect is caught and turned into an error toast.
     */
    method HandleWalletAction(session: WalletSession, p: Option<Provider>) returns (action: WalletAction, toast: Option<Toast>)
      requires session.Valid()
      modifies session
      ensures session.Valid()
      ensures action == if old(session.state.isConnected) then Disconnected else ConnectAttempted(ConnectOutcome(p))
      ensures toast == WalletActionToast(action)
      ensures toast != Some(WalletActionToastAsWritten(action)) <==> action == ConnectAttempted(ProviderMissing)
      ensures action.Disconnected? ==>
        session.state == Initial && session.log == old(session.log) + [Disconnect]
        && session.requests == old(session.requests)
      ensures action.ConnectAttempted? ==>
        session.log == old(session.log) + ConnectActions(p, session.toEther)
        && session.requests == old(session.requests) + ConnectRequests(p)
    {
      if session.state.isConnected {
        session.DisconnectWallet();
        action := Disconnected;
      } else {
        var result := session.ConnectWallet(p);
        action := ConnectAttempted(result);
      }
      toast := WalletActionToast(action);
    }
  }
}

=== FILE: networks.dfy ===
/**
 * The network registry of the wallet session: a fixed table from chain id to
 * display name, with a synthesised "Chain ID: N" label for any other id.
 */
module Networks {
  import opened Optional
  import opened Numerals

  const Registry: map<int, string> := map[
    1 := "Ethereum Mainnet",
    3 := "Ropsten Testnet",
    4 := "Rinkeby Testnet",
    5 := "Goerli Testnet",
    137 := "Polygon Mainnet",
    80001 := "Polygon Mumbai",
    56 := "BSC Mainnet",
    97 := "BSC Testnet",
    42161 := "Arbitrum One",
    421613 := "Arbitrum Goerli"
  ]

  const FallbackPrefix := "Chain ID: "

  /** `networks[id] || "Chain ID: " + id` for an id that parsed to a number. */
  function NetworkName(id: int): string {
    if id in Registry then Registry[id] else FallbackPrefix + IntToDecimal(id)
  }

  /** The label of a raw chain id: `parseInt(chainId, 16)`, then the lookup; NaN gives "Chain ID: NaN". */
  function ChainLabel(chainId: string): string {
    match ParseIntRadix16(chainId)
    case None => FallbackPrefix + "NaN"
    case Some(id) => NetworkName(id)
  }

  lemma KnownNetworks()
    ensures NetworkName(1) == "Ethereum Mainnet"
    ensures NetworkName(137) == "Polygon Mainnet"
    ensures NetworkName(56) == "BSC Mainnet"
    ensures NetworkName(42161) == "Arbitrum One"
    ensures NetworkName(80001) == "Polygon Mumbai"
  {
  }

  /** An id outside the table is labelled "Chain ID: " and its decimal text, which gives the id back. */
  lemma FallbackName(id: int)
    requires id !in Registry
    ensures |NetworkName(id)| > |FallbackPrefix|
    ensures NetworkName(id)[..|FallbackPrefix|] == FallbackPrefix
    ensures NetworkName(id)[|FallbackPrefix|..] == IntToDecimal(id)
    ensures id >= 0 ==> DecimalValue(NetworkName(id)[|FallbackPrefix|..]) == id
  {
    DecimalSign(id);
    var name := NetworkName(id);
    assert name[|FallbackPrefix|..] == IntToDecimal(id);
    if id >= 0 {
      DecimalRoundTrip(id);
    }
  }

  lemma UnknownChainExample()
    ensures NetworkName(999999) == "Chain ID: 999999"
  {
  }

  /** No label of the table starts with the fallback prefix. */
  lemma RegistryLabelsAreNotFallbacks(id: int)
    requires id in Registry
    ensures |Registry[id]| > 0 && Registry[id][0] != FallbackPrefix[0]
  {
  }

  /** Two chains never share a label: the registry names are distinct and a fallback label encodes its id. */
  lemma NetworkNameInjective(a: int, b: int)
    requires NetworkName(a) == NetworkName(b)
    ensures a == b
  {
    var name := NetworkName(a);
    if a in Registry && b in Registry {
    } else if a !in Registry && b !in Registry {
      FallbackName(a);
      FallbackName(b);
      IntToDecimalInjective(a, b);
    } else if a in Registry {
      RegistryLabelsAreNotFallbacks(a);
      FallbackName(b);
    } else {
      RegistryLabelsAreNotFallbacks(b);
      FallbackName(a);
    }
  }

  /** The label of a chain id tells which number it parsed to, NaN included. */
  lemma ChainLabelDeterminesId(x: string, y: string)
    requires ChainLabel(x) == ChainLabel(y)
    ensures ParseIntRadix16(x) == ParseIntRadix16(y)
  {
    var nan := FallbackPrefix + "NaN";
    assert nan[|FallbackPrefix|..] == "NaN";
    match ParseIntRadix16(x)
    case None =>
      if ParseIntRadix16(y).Some? {
        NaNIsNoName(ParseIntRadix16(y).value);
      }
    case Some(i) =>
      match ParseIntRadix16(y)
      case None => NaNIsNoName(i);
      case Some(j) => NetworkNameInjective(i, j);
  }

  lemma NaNIsNoName(id: int)
    ensures NetworkName(id) != FallbackPrefix + "NaN"
  {
    if id !in Registry {
      FallbackName(id);
      DecimalSign(id);
      var nan := FallbackPrefix + "NaN";
      assert nan[|FallbackPrefix|..] == "NaN";
      if id >= 0 {
        assert IsDecimalDigit(IntToDecimal(id)[0]);
      }
    }
  }

  /** A provider's chain id in the EIP-1193 form resolves to the name of that chain. */
  lemma ChainLabelOfQuantity(id: nat)
    ensures ChainLabel(HexQuantity(id)) == NetworkName(id)
  {
    ParseHexQuantity(id);
  }
}

=== FILE: numerals.dfy ===
/**
 * Integer text as the wallet code meets it: the decimal rendering JavaScript
 * gives an integer in a template literal, and `parseInt(text, 16)` applied to
 * the hexadecimal quantities an EIP-1193 provider returns.
 */
module Numerals {
  import opened Optional

  // ----- decimal -----

  predicate IsDecimalDigit(c: char) {
    '0' <= c <= '9'
  }

  predicate AllDecimalDigits(s: string) {
    forall i :: 0 <= i < |s| ==> IsDecimalDigit(s[i])
  }

  function DecimalDigitChar(d: nat): (c: char)
    requires d < 10
    ensures IsDecimalDigit(c)
  {
    (48 + d) as char
  }

  function DecimalDigitValue(c: char): (d: nat)
    requires IsDecimalDigit(c)
    ensures d < 10 && DecimalDigitChar(d) == c
  {
    c as int - 48
  }

  /** The decimal text of `n`, without leading zeros, as JavaScript renders an integer below 10^21. */
  function NatToDecimal(n: nat): (r: string)
    ensures |r| >= 1
    ensures AllDecimalDigits(r)
    ensures r[0] == '0' <==> n == 0
    decreases n
  {
    if n < 10 then [DecimalDigitChar(n)] else NatToDecimal(n / 10) + [DecimalDigitChar(n % 10)]
  }

  /** The number a string of decimal digits denotes; the reference reading of `NatToDecimal`. */
  function DecimalValue(s: string): nat
    requires AllDecimalDigits(s)
    decreases |s|
  {
    if s == [] then 0 else DecimalValue(s[..|s| - 1]) * 10 + DecimalDigitValue(s[|s| - 1])
  }

  lemma {:induction false} DecimalRoundTrip(n: nat)
    ensures DecimalValue(NatToDecimal(n)) == n
    decreases n
  {
    if n >= 10 {
      var prefix := NatToDecimal(n / 10);
      var r := prefix + [DecimalDigitChar(n % 10)];
      assert r[..|r| - 1] == prefix;
      DecimalRoundTrip(n / 10);
    }
  }

  /** JavaScript's `String(i)` for an integer `i` (negative zero is rendered "0"). */
  function IntToDecimal(i: int): string {
    if i < 0 then "-" + NatToDecimal(-i) else NatToDecimal(i)
  }

  lemma NatToDecimalInjective(x: nat, y: nat)
    requires NatToDecimal(x) == NatToDecimal(y)
    ensures x == y
  {
    DecimalRoundTrip(x);
    DecimalRoundTrip(y);
  }

  /** The rendering starts with a minus sign exactly for negative integers. */
  lemma DecimalSign(i: int)
    ensures |IntToDecimal(i)| >= 1
    ensures IntToDecimal(i)[0] == '-' <==> i < 0
  {
    if i >= 0 {
      assert IsDecimalDigit(NatToDecimal(i)[0]);
    }
  }

  /** Distinct integers never share a decimal rendering. */
  lemma IntToDecimalInjective(a: int, b: int)
    requires IntToDecimal(a) == IntToDecimal(b)
    ensures a == b
  {
    DecimalSign(a);
    DecimalSign(b);
    if a < 0 {
      assert NatToDecimal(-a) == IntToDecimal(a)[1..] && NatToDecimal(-b) == IntToDecimal(b)[1..];
      NatToDecimalInjective(-a, -b);
    } else {
      NatToDecimalInjective(a, b);
    }
  }

  // ----- hexadecimal -----

  function HexDigitValue(c: char): (d: Option<nat>)
    ensures d.Some? ==> d.value < 16
    ensures d.Some? <==> IsDecimalDigit(c) || 'a' <= c <= 'f' || 'A' <= c <= 'F'
  {
    if '0' <= c <= '9' then Some(c as int - 48)
    else if 'a' <= c <= 'f' then Some(c as int - 87)
    else if 'A' <= c <= 'F' then Some(c as int - 55)
    else None
  }

  predicate IsHexDigit(c: char) {
    HexDigitValue(c).Some?
  }

  predicate AllHexDigits(s: string) {
    forall i :: 0 <= i < |s| ==> IsHexDigit(s[i])
  }

  /** Lower-case hexadecimal digit, as EIP-1193 providers write quantities. */
  function HexDigitChar(d: nat): (c: char)
    requires d < 16
    ensures HexDigitValue(c) == Some(d)
  {
    if d < 10 then (48 + d) as char else (87 + d) as char
  }

  /** Lower-case hexadecimal text of `n` without leading zeros. */
  function NatToHex(n: nat): (r: string)
    ensures |r| >= 1
    ensures AllHexDigits(r)
    ensures r[0] == '0' <==> n == 0
    decreases n
  {
    if n < 16 then [HexDigitChar(n)] else NatToHex(n / 16) + [HexDigitChar(n % 16)]
  }

  /** A quantity as a provider returns it: "0x" followed by `NatToHex`. */
  function HexQuantity(n: nat): string {
    "0x" + NatToHex(n)
  }

  /** The number a string of hexadecimal digits (either case) denotes. */
  function HexValue(s: string): nat
    requires AllHexDigits(s)
    decreases |s|
  {
    if s == [] then 0 else HexValue(s[..|s| - 1]) * 16 + HexDigitValue(s[|s| - 1]).value
  }

  lemma {:induction false} HexRoundTrip(n: nat)
    ensures HexValue(NatToHex(n)) == n
    decreases n
  {
    if n >= 16 {
      var prefix := NatToHex(n / 16);
      var r := prefix + [HexDigitChar(n % 16)];
      assert r[..|r| - 1] == prefix;
      HexRoundTrip(n / 16);
    }
  }

  /** The length of the longest prefix of `s` made of hexadecimal digits. */
  function HexPrefixLength(s: string): (k: nat)
    ensures k <= |s|
    ensures AllHexDigits(s[..k])
    ensures k < |s| ==> !IsHexDigit(s[k])
    decreases |s|
  {
    if s == [] || !IsHexDigit(s[0]) then 0
    else
      var k := 1 + HexPrefixLength(s[1..]);
      assert s[..k] == [s[0]] + s[1..][..k - 1];
      k
  }

  /**
   * StrWhiteSpaceChar of ECMAScript: the white space and line terminator
   * code points, the Zs category being U+0020, U+00A0, U+1680, U+2000 to
   * U+200A, U+202F, U+205F and U+3000.
   */
  predicate IsJsWhiteSpace(c: char) {
    var u := c as int;
    u == 0x09 || u == 0x0A || u == 0x0B || u == 0x0C || u == 0x0D || u == 0x20
    || u == 0xA0 || u == 0x1680 || (0x2000 <= u <= 0x200A) || u == 0x2028 || u == 0x2029
    || u == 0x202F || u == 0x205F || u == 0x3000 || u == 0xFEFF
  }

  function TrimLeadingWhiteSpace(s: string): (r: string)
    ensures |r| <= |s|
    ensures r != [] ==> !IsJsWhiteSpace(r[0])
    decreases |s|
  {
    if s != [] && IsJsWhiteSpace(s[0]) then TrimLeadingWhiteSpace(s[1..]) else s
  }

  /** Trimming only removes white space from the front: what remains is a suffix of the input. */
  lemma {:induction false} TrimKeepsSuffix(s: string)
    ensures TrimLeadingWhiteSpace(s) == s[|s| - |TrimLeadingWhiteSpace(s)|..]
    ensures forall i :: 0 <= i < |s| - |TrimLeadingWhiteSpace(s)| ==> IsJsWhiteSpace(s[i])
    decreases |s|
  {
    if s != [] && IsJsWhiteSpace(s[0]) {
      TrimKeepsSuffix(s[1..]);
    }
  }

  /**
   * `parseInt(s, 16)`: skip leading white space, read an optional sign, drop
   * an optional "0x"/"0X", then read the longest run of hexadecimal digits;
   * `None` is the NaN that an empty run gives.
   */
  function ParseIntRadix16(s: string): Option<int> {
    var t := TrimLeadingWhiteSpace(s);
    var negative := |t| > 0 && t[0] == '-';
    var u := if |t| > 0 && (t[0] == '-' || t[0] == '+') then t[1..] else t;
    var v := if |u| >= 2 && u[0] == '0' && (u[1] == 'x' || u[1] == 'X') then u[2..] else u;
    var k := HexPrefixLength(v);
    if k == 0 then None
    else if negative then Some(-(HexValue(v[..k]) as int))
    else Some(HexValue(v[..k]))
  }

  /** A run of hexadecimal digits followed by anything else is read up to its end. */
  lemma {:induction false} HexPrefixOfDigits(digits: string, rest: string)
    requires AllHexDigits(digits)
    requires rest == [] || !IsHexDigit(rest[0])
    ensures HexPrefixLength(digits + rest) == |digits|
    decreases |digits|
  {
    if digits != [] {
      assert (digits + rest)[1..] == digits[1..] + rest;
      HexPrefixOfDigits(digits[1..], rest);
    }
  }

  /** Reading stops at the first character that is not a hexadecimal digit. */
  lemma ParseIgnoresTrailingText(n: nat, rest: string)
    requires rest == [] || !IsHexDigit(rest[0])
    ensures ParseIntRadix16(HexQuantity(n) + rest) == Some(n)
  {
    var digits := NatToHex(n);
    var s := HexQuantity(n) + rest;
    assert s[0] == '0' && s[1] == 'x' && !IsJsWhiteSpace(s[0]);
    assert TrimLeadingWhiteSpace(s) == s;
    assert s[2..] == digits + rest;
    HexPrefixOfDigits(digits, rest);
    assert (digits + rest)[..|digits|] == digits;
    HexRoundTrip(n);
  }

  /** Every quantity a provider writes in the EIP-1193 form reads back as itself. */
  lemma ParseHexQuantity(n: nat)
    ensures ParseIntRadix16(HexQuantity(n)) == Some(n)
  {
    ParseIgnoresTrailingText(n, []);
    assert HexQuantity(n) + [] == HexQuantity(n);
  }
}

=== FILE: optional.dfy ===
/** A value that may be absent: JavaScript's `null`/`undefined` beside a real value. */
module Optional {

  datatype Option<+T> = None | Some(value: T)
}

=== FILE: session.dfy ===
/**
 * The wallet session of `WalletContext.js`: the operations that talk to the
 * injected EIP-1193 provider and dispatch actions to the wallet store.
 *
 * The provider is abstracted to the answers it gives during one operation
 * (`Provider`); the observable effects are the actions dispatched to the
 * store (`log`) and the requests issued to the provider (`requests`). The
 * store's state is always the reducer folded over the dispatch log.
 */
module Session {
  import opened Optional
  import opened WalletStore
  import opened Networks

  /** A rejected provider request; only its `message` property is read. */
  datatype ProviderError = ProviderError(message: Option<string>)

  /** The settled value of one awaited provider request. */
  datatype Reply<T> = Answer(value: T) | Rejected(error: ProviderError)

  /** The answers the provider gives to the requests of one operation. */
  datatype Provider = Provider(
    authorizedAccounts: Reply<seq<string>>,  // eth_accounts (no prompt)
    requestedAccounts: Reply<seq<string>>,   // eth_requestAccounts (may prompt)
    balance: Reply<string>,                  // eth_getBalance, hexadecimal wei
    chainId: Reply<string>)                  // eth_chainId, hexadecimal

  datatype Request =
    | EthAccounts
    | EthRequestAccounts
    | EthGetBalance(address: Option<string>, block: string)
    | EthChainId

  /** How `connectWallet` settles: resolved after connecting, resolved early without a provider, or rejected. */
  datatype ConnectResult = Connected | ProviderMissing | Raised(error: ProviderError)

  /** `accounts[0]`, undefined for an empty list. */
  function FirstAccount(accounts: seq<string>): Option<string> {
    if |accounts| > 0 then Some(accounts[0]) else None
  }

  /** JavaScript truthiness of the stored address: present and not the empty string. */
  predicate HasStoredAddress(s: WalletState) {
    s.userAddress.Some? && s.userAddress.value != ""
  }

  // ----- what connectWallet does, as values -----

  /** The first of the three connect requests to be rejected, in the order they are issued. */
  function FirstRejection(provider: Provider): Option<ProviderError> {
    if provider.requestedAccounts.Rejected? then Some(provider.requestedAccounts.error)
    else if provider.balance.Rejected? then Some(provider.balance.error)
    else if provider.chainId.Rejected? then Some(provider.chainId.error)
    else None
  }

  function ConnectOutcome(p: Option<Provider>): ConnectResult {
    match p
    case None => ProviderMissing
    case Some(provider) =>
      match FirstRejection(provider)
      case Some(e) => Raised(e)
      case None => Connected
  }

  /** The requests of one connect, in order; each is issued only when the one before it was answered. */
  function ConnectRequests(p: Option<Provider>): seq<Request> {
    match p
    case None => []
    case Some(provider) =>
      match provider.requestedAccounts
      case Rejected(_) => [EthRequestAccounts]
      case Answer(accounts) =>
        [EthRequestAccounts, EthGetBalance(FirstAccount(accounts), "latest")]
        + (if provider.balance.Answer? then [EthChainId] else [])
  }

  /** The actions of one connect. */
  function ConnectActions(p: Option<Provider>, toEther: string -> string): seq<Action> {
    match p
    case None => []
    case Some(provider) =>
      match FirstRejection(provider)
      case Some(e) => [ConnectStart, ConnectFailure(e.message)]
      case None =>
        [ConnectStart,
         ConnectSuccess(FirstAccount(provider.requestedAccounts.value),
                        Some(toEther(provider.balance.value)),
                        Some(ChainLabel(provider.chainId.value)))]
  }

  /** The requests of one balance refresh from state `s`. */
  function BalanceRequests(s: WalletState, p: Option<Provider>): seq<Request> {
    if HasStoredAddress(s) && p.Some? then [EthGetBalance(s.userAddress, "latest")] else []
  }

  /** The actions of one balance refresh from state `s`: nothing unless the provider answers. */
  function BalanceActions(s: WalletState, p: Option<Provider>, toEther: string -> string): seq<Action> {
    if HasStoredAddress(s) && p.Some? && p.value.balance.Answer?
    then [Action.UpdateBalance(Some(toEther(p.value.balance.value)))]
    else []
  }

  /**
   * The dispatch discipline of connectWallet: nothing without a provider;
   * otherwise connect-start, then success exactly when every request was
   * answered, and otherwise a failure carrying the first rejection's message.
   */
  lemma ConnectDiscipline(p: Option<Provider>, toEther: string -> string)
    ensures var actions := ConnectActions(p, toEther);
      && (p.None? <==> actions == [])
      && (p.Some? ==> |actions| == 2 && actions[0] == ConnectStart)
      && (p.Some? ==> (actions[1].ConnectSuccess? <==> ConnectOutcome(p) == Connected))
      && (ConnectOutcome(p).Raised? ==> actions[1] == ConnectFailure(ConnectOutcome(p).error.message))
      && (ConnectOutcome(p) == ProviderMissing <==> p.None?)
  {
  }

  /** Requests go out as accounts, balance of the first account, chain id, and stop at the first rejection. */
  lemma ConnectRequestOrder(provider: Provider)
    ensures var requests := ConnectRequests(Some(provider));
      && 1 <= |requests| <= 3
      && requests[0] == EthRequestAccounts
      && (|requests| >= 2 <==> provider.requestedAccounts.Answer?)
      && (|requests| >= 2 ==> requests[1] == EthGetBalance(FirstAccount(provider.requestedAccounts.value), "latest"))
      && (|requests| == 3 <==> provider.requestedAccounts.Answer? && provider.balance.Answer?)
      && (|requests| == 3 ==> requests[2] == EthChainId)
  {
  }

  /**
   * A connect that finishes never leaves the store connecting: it ends
   * connected with no error, or with the failure recorded and the rest of the
   * state as it was. Every request is taken to settle; one that never does
   * would leave the store connecting.
   */
  lemma ConnectSettles(s: WalletState, provider: Provider, toEther: string -> string)
    ensures var t := ReduceAll(s, ConnectActions(Some(provider), toEther));
      && !t.isConnecting
      && t.transactions == s.transactions
      && (ConnectOutcome(Some(provider)) == Connected ==>
            t.isConnected && t.error == None
            && t.userAddress == FirstAccount(provider.requestedAccounts.value)
            && t.userBalance == Some(toEther(provider.balance.value))
            && t.currentNetwork == Some(ChainLabel(provider.chainId.value)))
      && (ConnectOutcome(Some(provider)).Raised? ==>
            t == s.(isConnecting := false, error := ConnectOutcome(Some(provider)).error.message))
  {
    var actions := ConnectActions(Some(provider), toEther);
    var first := actions[..1];
    assert actions[..|actions| - 1] == first && first[..0] == [];
    assert ReduceAll(s, first) == Reduce(s, actions[0]);
  }

  /**
   * What this component keeps true of the store beyond `Consistent`: a
   * balance, like an address, is only held while connected.
   */
  predicate Coherent(s: WalletState) {
    Consistent(s) && (!s.isConnected ==> s.userBalance == None)
  }

  class WalletSession {
    /** The wallet slice of the store. */
    var state: WalletState
    /** Every action dispatched so far, oldest first. */
    var log: seq<Action>
    /** Every request issued to the provider so far, oldest first. */
    var requests: seq<Request>
    /** The wei-to-ether text conversion (floating point in `WalletContext.js`). */
    const toEther: string -> string

    ghost predicate Valid()
      reads this
    {
      state == ReduceAll(Initial, log) && Coherent(state)
    }

    constructor (toEther: string -> string)
      ensures Valid()
      ensures state == Initial && log == [] && requests == [] && this.toEther == toEther
    {
      state := Initial;
      log := [];
      requests := [];
      this.toEther := toEther;
    }

    /** Hands one action to the store. */
    method Dispatch(a: Action)
      requires state == ReduceAll(Initial, log)
      modifies this
      ensures state == Reduce(old(state), a) && state == ReduceAll(Initial, log)
      ensures log == old(log) + [a] && requests == old(requests)
    {
      state := Reduce(state, a);
      log := log + [a];
      assert log[..|log| - 1] == old(log);
    }

    method Issue(r: Request)
      modifies this
      ensures requests == old(requests) + [r]
      ensures state == old(state) && log == old(log)
    {
      requests := requests + [r];
    }

    /** The requests inside connectWallet's try block; the first rejection ends the block and is returned. */
    method RequestConnectData(provider: Provider) returns (caught: Option<ProviderError>)
      modifies this
      ensures caught == FirstRejection(provider)
      ensures requests == old(requests) + ConnectRequests(Some(provider))
      ensures state == old(state) && log == old(log)
    {
      caught := None;
      Issue(EthRequestAccounts);
      if provider.requestedAccounts.Rejected? {
        caught := Some(provider.requestedAccounts.error);
      } else {
        var address := FirstAccount(provider.requestedAccounts.value);
        Issue(EthGetBalance(address, "latest"));
        if provider.balance.Rejected? {
          caught := Some(provider.balance.error);
        } else {
          Issue(EthChainId);
          if provider.chainId.Rejected? {
            caught := Some(provider.chainId.error);
          }
        }
      }
    }

    method ConnectWallet(p: Option<Provider>) returns (r: ConnectResult)
      requires Valid()
      modifies this
      ensures Valid()
      ensures r == ConnectOutcome(p)
      ensures log == old(log) + ConnectActions(p, toEther)
      ensures requests == old(requests) + ConnectRequests(p)
      ensures r == ProviderMissing ==> state == old(state)
      ensures r == Connected ==>
        && state.isConnected && !state.isConnecting && state.error == None
        && state.userAddress == FirstAccount(p.value.requestedAccounts.value)
        && state.userBalance == Some(toEther(p.value.balance.value))
        && state.currentNetwork == Some(ChainLabel(p.value.chainId.value))
        && state.transactions == old(state.transactions)
      ensures r.Raised? ==> state == old(state).(isConnecting := false, error := r.error.message)
    {
      if p.None? {
        return ProviderMissing;
      }
      var provider := p.value;
      Dispatch(ConnectStart);
      var caught := RequestConnectData(provider);
      match caught {
        case Some(e) =>
          Dispatch(ConnectFailure(e.message));
          assert log == old(log) + ConnectActions(p, toEther);
          r := Raised(e);
        case None =>
          var address := FirstAccount(provider.requestedAccounts.value);
          var balanceInEth := toEther(provider.balance.value);
          var networkName := ChainLabel(provider.chainId.value);
          Dispatch(ConnectSuccess(address, Some(balanceInEth), Some(networkName)));
          assert log == old(log) + ConnectActions(p, toEther);
          r := Connected;
      }
    }

    method DisconnectWallet()
      requires Valid()
      modifies this
      ensures Valid()
      ensures state == Initial
      ensures log == old(log) + [Disconnect] && requests == old(requests)
    {
      Dispatch(Disconnect);
    }

    /** Re-reads the balance of the stored address; a rejection is swallowed and changes nothing. */
    method UpdateBalance(p: Option<Provider>)
      requires Valid()
      modifies this
      ensures Valid()
      ensures requests == old(requests) + BalanceRequests(old(state), p)
      ensures log == old(log) + BalanceActions(old(state), p, toEther)
      ensures state == if BalanceActions(old(state), p, toEther) == [] then old(state)
                       else old(state).(userBalance := Some(toEther(p.value.balance.value)))
    {
      if HasStoredAddress(state) {
        // Without a provider the request itself throws, and the error is caught.
        if p.Some? {
          Issue(EthGetBalance(state.userAddress, "latest"));
          match p.value.balance {
            case Rejected(_) =>
            case Answer(raw) =>
              var balanceInEth := toEther(raw);
              Dispatch(Action.UpdateBalance(Some(balanceInEth)));
          }
        }
      }
    }

    /** The silent probe at start-up: resumes a connection only if accounts are already authorised. */
    method CheckWalletConnection(p: Option<Provider>)
      requires Valid()
      modifies this
      ensures Valid()
      ensures p.None? ==> state == old(state) && log == old(log) && requests == old(requests)
      ensures p.Some? ==>
        var resume := p.value.authorizedAccounts.Answer? && |p.value.authorizedAccounts.value| > 0;
        && requests == old(requests) + [EthAccounts] + (if resume then ConnectRequests(p) else [])
        && log == old(log) + (if resume then ConnectActions(p, toEther) else [])
        && state == (if resume then ReduceAll(old(state), ConnectActions(p, toEther)) else old(state))
    {
      if p.Some? {
        Issue(EthAccounts);
        match p.value.authorizedAccounts {
          case Rejected(_) =>
          case Answer(accounts) =>
            if |accounts| > 0 {
              // A rejected connect is caught here and only logged.
              ReduceAllAppend(Initial, log, ConnectActions(p, toEther));
              var _ := ConnectWallet(p);
            }
        }
      }
    }

    /** The provider's accountsChanged event. */
    method HandleAccountsChanged(p: Option<Provider>, accounts: seq<string>)
      requires Valid()
      modifies this
      ensures Valid()
      ensures |accounts| == 0 ==>
        state == Initial && log == old(log) + [Disconnect] && requests == old(requests)
      ensures |accounts| > 0 && Some(accounts[0]) != old(state.userAddress) ==>
        log == old(log) + ConnectActions(p, toEther) && requests == old(requests) + ConnectRequests(p)
        && state == ReduceAll(old(state), ConnectActions(p, toEther))
      ensures |accounts| > 0 && Some(accounts[0]) == old(state.userAddress) ==>
        state == old(state) && log == old(log) && requests == old(requests)
    {
      if |accounts| == 0 {
        DisconnectWallet();
      } else if Some(accounts[0]) != state.userAddress {
        // The returned promise is not awaited; a rejection goes unhandled.
        ReduceAllAppend(Initial, log, ConnectActions(p, toEther));
        var _ := ConnectWallet(p);
      }
    }

    /** The provider's chainChanged event: relabel the network, then refresh the balance if connected. */
    method HandleChainChanged(p: Option<Provider>, chainId: string)
      requires Valid()
      modifies this
      ensures Valid()
      ensures state.currentNetwork == Some(ChainLabel(chainId))
      ensures log == old(log) + [UpdateNetwork(Some(ChainLabel(chainId)))]
                     + (if old(state.isConnected) then BalanceActions(old(state), p, toEther) else [])
      ensures requests == old(requests)
                          + (if old(state.isConnected) then BalanceRequests(old(state), p) else [])
      ensures state == if old(state.isConnected) && BalanceActions(old(state), p, toEther) != []
                       then old(state).(currentNetwork := Some(ChainLabel(chainId)),
                                        userBalance := Some(toEther(p.value.balance.value)))
                       else old(state).(currentNetwork := Some(ChainLabel(chainId)))
    {
      var networkName := ChainLabel(chainId);
      var wasConnected := state.isConnected;
      ghost var before := state;
      Dispatch(UpdateNetwork(Some(networkName)));
      // The refresh depends only on the stored address, which the relabelling keeps.
      assert state.userAddress == before.userAddress && Coherent(state);
      assert BalanceRequests(state, p) == BalanceRequests(before, p);
      assert BalanceActions(state, p, toEther) == BalanceActions(before, p, toEther);
      if wasConnected {
        UpdateBalance(p);
      }
    }

    /** The provider's disconnect event. */
    method HandleDisconnect()
      requires Valid()
      modifies this
      ensures Valid()
      ensures state == Initial
      ensures log == old(log) + [Disconnect] && requests == old(requests)
    {
      DisconnectWallet();
    }
  }
}

=== FILE: wallet_store.dfy ===
/**
 * The wallet slice of the Redux store: a seven-field state record and the
 * pure reducer `handleWallet`, which maps a state and an action to the next
 * state and returns the state itself for any action type it does not know.
 */
module WalletStore {
  import opened Optional

  /** A transaction record, kept as the property map of the payload object. */
  datatype Transaction = Transaction(fields: map<string, string>)

  datatype WalletState = WalletState(
    isConnected: bool,
    userAddress: Option<string>,
    userBalance: Option<string>,
    currentNetwork: Option<string>,
    isConnecting: bool,
    error: Option<string>,
    transactions: seq<Transaction>)  // most recent first

  const Initial := WalletState(false, None, None, None, false, None, [])

  /** The actions, one constructor per Redux action type; payload fields may be undefined. */
  datatype Action =
    | ConnectStart                                   // "WALLET_CONNECT_START"
    | ConnectSuccess(address: Option<string>,
                     balance: Option<string>,
                     network: Option<string>)        // "WALLET_CONNECT_SUCCESS"
    | ConnectFailure(message: Option<string>)        // "WALLET_CONNECT_FAILURE"
    | Disconnect                                     // "WALLET_DISCONNECT"
    | UpdateBalance(balance: Option<string>)         // "WALLET_UPDATE_BALANCE"
    | UpdateNetwork(network: Option<string>)         // "WALLET_UPDATE_NETWORK"
    | AddTransaction(record: Transaction)            // "WALLET_ADD_TRANSACTION"
    | Unrecognised(kind: string)                     // any other type, e.g. Redux's own init action;
                                                     // `kind` is never one of the seven above

  /** `handleWallet(state, action)` for a state that is present. */
  function Reduce(s: WalletState, a: Action): (r: WalletState)
    ensures r.isConnected ==> s.isConnected || a.ConnectSuccess?
    ensures |r.transactions| <= |s.transactions| + 1
  {
    match a
    case ConnectStart => s.(isConnecting := true, error := None)
    case ConnectSuccess(address, balance, network) =>
      s.(isConnected := true, isConnecting := false, userAddress := address,
         userBalance := balance, currentNetwork := network, error := None)
    case ConnectFailure(message) => s.(isConnecting := false, error := message)
    case Disconnect => Initial
    case UpdateBalance(balance) => s.(userBalance := balance)
    case UpdateNetwork(network) => s.(currentNetwork := network)
    case AddTransaction(record) => s.(transactions := [record] + s.transactions)
    case Unrecognised(_) => s
  }

  /** `handleWallet(state, action)`, whose missing state defaults to the initial one. */
  function Handle(state: Option<WalletState>, a: Action): WalletState {
    match state
    case None => Reduce(Initial, a)
    case Some(s) => Reduce(s, a)
  }

  /** The state after the store has applied `actions` in order, starting from `s`. */
  function ReduceAll(s: WalletState, actions: seq<Action>): (r: WalletState)
    ensures |r.transactions| <= |s.transactions| + |actions|
    decreases |actions|
  {
    if actions == [] then s
    else Reduce(ReduceAll(s, actions[..|actions| - 1]), actions[|actions| - 1])
  }

  // ----- one transition at a time -----

  lemma ConnectStartEffect(s: WalletState)
    ensures var t := Reduce(s, ConnectStart);
      t.isConnecting && t.error == None
      && t.isConnected == s.isConnected && t.userAddress == s.userAddress
      && t.userBalance == s.userBalance && t.currentNetwork == s.currentNetwork
      && t.transactions == s.transactions
  {
  }

  lemma ConnectSuccessEffect(s: WalletState, address: Option<string>, balance: Option<string>, network: Option<string>)
    ensures var t := Reduce(s, ConnectSuccess(address, balance, network));
      t.isConnected && !t.isConnecting && t.error == None
      && t.userAddress == address && t.userBalance == balance && t.currentNetwork == network
      && t.transactions == s.transactions
  {
  }

  lemma ConnectFailureEffect(s: WalletState, message: Option<string>)
    ensures var t := Reduce(s, ConnectFailure(message));
      !t.isConnecting && t.error == message
      && t.isConnected == s.isConnected && t.userAddress == s.userAddress
      && t.userBalance == s.userBalance && t.currentNetwork == s.currentNetwork
      && t.transactions == s.transactions
  {
  }

  /** Disconnecting forgets everything, the transaction log included, and is idempotent. */
  lemma DisconnectResets(s: WalletState)
    ensures Reduce(s, Disconnect) == Initial
    ensures Reduce(Reduce(s, Disconnect), Disconnect) == Reduce(s, Disconnect)
  {
  }

  lemma UpdateBalanceEffect(s: WalletState, balance: Option<string>)
    ensures var t := Reduce(s, UpdateBalance(balance));
      t.userBalance == balance && t == s.(userBalance := t.userBalance)
  {
  }

  lemma UpdateNetworkEffect(s: WalletState, network: Option<string>)
    ensures var t := Reduce(s, UpdateNetwork(network));
      t.currentNetwork == network && t == s.(currentNetwork := t.currentNetwork)
  {
  }

  lemma AddTransactionEffect(s: WalletState, record: Transaction)
    ensures var t := Reduce(s, AddTransaction(record));
      |t.transactions| == |s.transactions| + 1
      && t.transactions[0] == record && t.transactions[1..] == s.transactions
      && t == s.(transactions := t.transactions)
  {
    var t := Reduce(s, AddTransaction(record));
    assert t.transactions[1..] == s.transactions;
  }

  /** The type strings the reducer recognises. */
  const KnownKinds := {"WALLET_CONNECT_START", "WALLET_CONNECT_SUCCESS", "WALLET_CONNECT_FAILURE",
                       "WALLET_DISCONNECT", "WALLET_UPDATE_BALANCE", "WALLET_UPDATE_NETWORK",
                       "WALLET_ADD_TRANSACTION"}

  lemma UnrecognisedIsIdentity(s: WalletState, kind: string)
    requires kind !in KnownKinds
    ensures Reduce(s, Unrecognised(kind)) == s
  {
  }

  lemma MissingStateIsInitial(a: Action)
    ensures Handle(None, a) == Reduce(Initial, a)
    ensures Handle(None, Unrecognised("@@redux/INIT")) == Initial
  {
  }

  // ----- sequences of actions -----

  /** Applying two batches in turn is applying their concatenation. */
  lemma {:induction false} ReduceAllAppend(s: WalletState, xs: seq<Action>, ys: seq<Action>)
    ensures ReduceAll(s, xs + ys) == ReduceAll(ReduceAll(s, xs), ys)
    decreases |ys|
  {
    if ys == [] {
      assert xs + ys == xs;
    } else {
      var front := ys[..|ys| - 1];
      assert (xs + ys)[..|xs + ys| - 1] == xs + front;
      ReduceAllAppend(s, xs, front);
    }
  }

  /** A disconnect erases every earlier action: only what follows it matters. */
  lemma DisconnectErasesHistory(s: WalletState, before: seq<Action>, after: seq<Action>)
    ensures ReduceAll(s, before + [Disconnect] + after) == ReduceAll(Initial, after)
  {
    ReduceAllAppend(s, before + [Disconnect], after);
    ReduceAllAppend(s, before, [Disconnect]);
    assert ReduceAll(ReduceAll(s, before), [Disconnect]) == Reduce(ReduceAll(s, before), Disconnect);
  }

  /**
   * Facts that hold of every state the store can reach: an address is only
   * ever stored while connected, and a connection in progress carries no error.
   */
  predicate Consistent(s: WalletState) {
    && (!s.isConnected ==> s.userAddress == None)
    && (s.isConnecting ==> s.error == None)
  }

  lemma ReducePreservesConsistent(s: WalletState, a: Action)
    requires Consistent(s)
    ensures Consistent(Reduce(s, a))
  {
  }

  lemma {:induction false} ReachableConsistent(actions: seq<Action>)
    ensures Consistent(ReduceAll(Initial, actions))
    decreases |actions|
  {
    if actions != [] {
      ReachableConsistent(actions[..|actions| - 1]);
      ReducePreservesConsistent(ReduceAll(Initial, actions[..|actions| - 1]), actions[|actions| - 1]);
    }
  }

  /**
   * Connecting and connected are not exclusive: a connect started while
   * connected (an account switch) passes through a state with both flags set.
   */
  lemma ReconnectOverlapsConnected(address: Option<string>, balance: Option<string>, network: Option<string>)
    ensures var t := ReduceAll(Initial, [ConnectStart, ConnectSuccess(address, balance, network), ConnectStart]);
      t.isConnected && t.isConnecting
  {
    var xs := [ConnectStart, ConnectSuccess(address, balance, network), ConnectStart];
    assert xs[..2][..1][..0] == [];
  }
}
